=== FILE: README.md ===
# Pushover notification plugin — a Dafny model of its decision logic

The plugin sends Pushover notifications from a Salt installation. It has three
entry points. Each begins with a small decision procedure, and this project
models all three:

- The execution module's `post_message` checks its arguments in a fixed order:
  token, user, message, priority range, emergency expire/retry, and the retry
  minimum. It then validates the user key and builds the message form, with
  conditional keys and a default title. It sends the form and maps the query
  result to `True` or a failure dict.
- The API helpers:
  - `query`, with its fixed function table, its URL and its classification of the
    HTTP result;
  - `validate_sound`, which reads the API answer into a `{message, res}` dict;
  - `validate_user`, which reads it into a `{message, result}` dict.
- The state `post_message`, an envelope around the execution module. It handles
  test mode, then a missing user, then a missing message; otherwise it delegates
  and maps the result.
- The returner. It checks credentials and priority, lays out the job return as a
  five-line CRLF body, and sends it through its own `_post_message`, which applies
  no default title.

Python values are `Py.Value` (`None`, bool, int, str). The model writes out
truthiness, `==` against an int literal, `in range(...)`, `<` (which raises on a
str or None), `str()` and `"".join`.

Every entry point returns a `Call`: what Python would return or raise, plus the
HTTP requests sent, in order. "No network call" therefore reads `sent == []`.

The HTTP helper is an oracle `Network` from request to result. Configuration
lookups are an oracle `Config` from key to value. The state's delegate is an
oracle `Executor`, and `PushoverState.Execution` plugs the execution-module model
into it.

Modules follow the source:

- `Py`: the Python semantics listed above.
- `PushoverForm`: the dicts that are built key by key.
- `PushoverApi`: utils/pushover.py, plus the sending tail that both senders share.
- `PushoverNotify`: the execution module.
- `PushoverState`: the state.
- `PushoverReturner`: the returner.

### Behaviour of the code worth knowing

- **A malformed response can raise.** The docstring of `query` promises "the json
  response from the API call or False" (utils/pushover.py:33). On a non-200 result
  with a "response" key, however, the code reads the local `response` before
  anything assigns it (utils/pushover.py:79). The `except ValueError` at line 82
  does not catch the resulting `UnboundLocalError`. Separately, `"".join(None)`
  raises `TypeError` when a non-success body has no "errors"
  (utils/pushover.py:114 and :151).
- **`query` never returns `res` false.** `res` becomes false only when the key the
  function table names holds 0 (utils/pushover.py:73-74), and that key is the HTTP
  status itself:
  - on a 200 that key holds 200;
  - on a non-200 the check either raises or is skipped.

  So neither sender ever returns a failed send, and the returner never writes its
  info-level error line (pushover_returner.py:199-200). It still writes the debug
  line at :198.
- **The returner's emergency check needs only one option.** Its message says
  priority 2 "requires pushover.expire and pushover.retry options", but it
  refuses only when both are unset (pushover_returner.py:171-175). Either one
  alone is enough.
- **A rejected user key raises in the returner.** The validate_user dict has no
  "res" key, so `result["res"]` raises `KeyError` (pushover_returner.py:199). The
  failure is not logged at info level.
- **The state lets exceptions escape.** The state has no `try`
  (states/pushover.py:115-124). Whatever the execution module raises propagates
  through the state unchanged: an invalid priority, a short retry or a missing
  token.
- **The state claims success for a rejected user key.** The execution module
  hands back the non-empty validate_user dict (pushover_notify.py:111-113), which
  is truthy, so the state reports "Sent message" (states/pushover.py:126-128).

## Model

| member | source | states |
|---|---|---|
| `PushoverApi.Url` | src/saltext/pushover/utils/pushover.py:38-47 | Exactly the three API functions have a URL. Each URL is "https://api.pushover.net/1/" followed by the function's path: messages.json, users/validate.json or sounds.json. |
| `PushoverApi.RouteInvertsUrl` | src/saltext/pushover/utils/pushover.py:38-42 | The function table is one-to-one: a URL belongs to a function exactly when the function's URL is that URL. |
| `PushoverApi.Classify` | src/saltext/pushover/utils/pushover.py:71-85 | `query` returns exactly when the HTTP status is 200 or there is no "response" key. It then returns `res` true with the raw result as message. Otherwise an `UnboundLocalError` for `response` escapes. |
| `PushoverApi.Query` | src/saltext/pushover/utils/pushover.py:15-85 | An unknown function raises `AttributeError` before any request. Otherwise exactly one request goes to the function's URL with the given verb, params, body and content type, decoded unless the verb is DELETE. The outcome is the classification of its result, and a returned dict has `res` true. |
| `PushoverApi.PostIsMessageRequest` | src/saltext/pushover/utils/pushover.py:52-56 | Posting a form to "message" sends exactly one form-encoded POST to messages.json with decoding on. |
| `PushoverApi.SoundIn` | src/saltext/pushover/utils/pushover.py:106-107 | `sound in sounds` holds only for a str among the sound names. Against a missing "sounds" list (read as `""`) the check raises `TypeError` exactly when the sound is not a str, and a str passes only when it is empty, so a truthy sound is never accepted. |
| `PushoverApi.ValidateSound` | src/saltext/pushover/utils/pushover.py:88-115 | One GET to sounds.json carrying the token. `res` is true exactly when the query returns, the body status equals 1 and the sound is listed, with message "Valid sound {sound}.". An unlisted sound gives the not-a-valid-sound warning, and a sound list that `in` cannot search raises `TypeError`. A non-1 status gives the joined errors, or `TypeError` without errors. A missing status gives "Sound is invalid". A failed query raises `UnboundLocalError`. |
| `PushoverForm.UserForm` | src/saltext/pushover/utils/pushover.py:129-133 | The user form holds user and token, in that order, and the device after them only when it is truthy. |
| `PushoverApi.ValidateUser` | src/saltext/pushover/utils/pushover.py:118-152 | One form-encoded POST to users/validate.json. `result` is true, with "User key is valid.", exactly when the query returns and the body status equals 1. Otherwise the message is the joined errors or "User key is invalid", or the call raises. |
| `PushoverForm.KeepHas` | src/saltext/pushover/modules/pushover_notify.py:118-129 | A dict built by guarded insertions holds an entry exactly when that insertion was executed. |
| `PushoverForm.KeepInKeyOrder` | src/saltext/pushover/modules/pushover_notify.py:118-129 | Insertions in increasing key rank build a dict without repeated keys, in insertion order. |
| `PushoverForm.MessageForm` | src/saltext/pushover/modules/pushover_notify.py:118-132 | The message form holds user, token, title, priority and message always. It holds device, expire and retry exactly when they are not None, and the sound exactly when it was accepted. Each key appears once, in insertion order. |
| `PushoverForm.MessageSlotsLayout` | src/saltext/pushover/modules/pushover_notify.py:118-129 | Before the sound, the form is, entry by entry: user; device if not None; token, title, priority; expire and retry if not None; message. |
| `PushoverForm.MessageFormEndsWithSound` | src/saltext/pushover/modules/pushover_notify.py:131-132 | An accepted sound is the last entry of the form. |
| `PushoverForm.PlainMessageForm` | src/saltext/pushover/modules/pushover_notify.py:118-129 | Without device, expire, retry or sound, the form is exactly user, token, title, priority, message. |
| `PushoverApi.Deliver` | src/saltext/pushover/modules/pushover_notify.py:118-140 | The shared sending tail. A truthy sound is checked first, and if that check raises nothing else is sent. Otherwise the form, with the sound only if accepted, is posted to messages.json, and the outcome is that query's classification. |
| `Py.InRangeIsSomeMemberEqual` | src/saltext/pushover/modules/pushover_notify.py:98 | `priority in range(-2, 3)` holds exactly when the priority compares equal to one of -2..2. |
| `Py.LessThan` | src/saltext/pushover/modules/pushover_notify.py:108 | `retry < 30` raises `TypeError` exactly for a str or None; otherwise it compares the integer value. |
| `PushoverNotify.Configured` | src/saltext/pushover/modules/pushover_notify.py:85-93 | A falsy argument falls back to "pushover.<option>", then to "pushover:<option>". The result is truthy exactly when one of the three is. |
| `PushoverNotify.Validate` | src/saltext/pushover/modules/pushover_notify.py:85-109 | The arguments pass exactly when they are acceptable. Otherwise the first failing check raises its own error, in order: token, user, message, priority range, emergency priority without both expire and retry, then a numeric retry below 30. A `TypeError` comes only from a truthy non-numeric retry, and such a retry raises it whenever the first five checks pass. |
| `PushoverNotify.Outgoing` | src/saltext/pushover/modules/pushover_notify.py:115-116 | The posted title is always truthy: the given title when truthy, otherwise the default "Message from SaltStack"; every other field passes through. |
| `PushoverNotify.Verdict` | src/saltext/pushover/modules/pushover_notify.py:142-145 | The result is `True` exactly when the query's `res` is true, and otherwise the query dict itself. |
| `PushoverNotify.PostMessage` | src/saltext/pushover/modules/pushover_notify.py:85-145 | A failed check raises with no request sent, and no request is sent only then. The first request validates the user. If validate_user raises, its exception escapes after that request alone. A rejected user dict comes back unchanged after that request alone. An accepted user hands over to the sending tail. A failure dict is only ever returned with `res` false. |
| `PushoverNotify.AcceptedUserPostsForm` | src/saltext/pushover/modules/pushover_notify.py:111-145 | After an accepted user key: the user request, then the sound check for a truthy sound, then the message form with defaulted title. The outcome follows the message query. |
| `PushoverNotify.NeverReturnsQueryFailure` | src/saltext/pushover/modules/pushover_notify.py:142-145 | As written, a returned value is `True` or the validate_user dict, never a query failure dict. |
| `PushoverNotify.DefaultTitleForm` | src/saltext/pushover/modules/pushover_notify.py:115-129 | Without device, expire, retry, sound or title, the form is user, token, "Message from SaltStack", priority, message. |
| `PushoverNotify.AcceptAllDelivers` | src/saltext/pushover/modules/pushover_notify.py:111-143 | Against a service that accepts everything, valid arguments without a sound give exactly the user validation, then the message post, and `True`. |
| `PushoverNotify.DefaultTitleScenario` | src/saltext/pushover/modules/pushover_notify.py:85-143 | user "U1", token "T1", message "hello": the form sent is user=U1, token=T1, title "Message from SaltStack", priority 0, message hello, and the result is `True`. |
| `PushoverState.Forwarded` | src/saltext/pushover/states/pushover.py:115-124 | The execution module receives the resolved user and the state's message, title, device, priority, expire, retry and token. It never receives a sound. |
| `PushoverState.Announcement` | src/saltext/pushover/states/pushover.py:100-101 | The test-mode comment contains the message text and "is to be sent", and ends with the message. |
| `PushoverState.PostMessage` | src/saltext/pushover/states/pushover.py:98-132 | Every envelope echoes the name and has empty changes. Test mode comes first, with result None and no call. A missing user, then a missing message, give result False with their comments and no call. Otherwise exactly the delegate's requests are sent, its exceptions propagate, and its truth value becomes the result with "Sent message: {name}" or "Failed to send message: {name}". The result is True exactly when the delegate returned something truthy. |
| `PushoverState.IgnoresSoundAndApiVersion` | src/saltext/pushover/states/pushover.py:33-45 | The state's outcome and requests do not depend on `sound` or `api_version`. |
| `PushoverState.ExecutionNeverFalsy` | src/saltext/pushover/states/pushover.py:126-131 | Whatever the execution module returns is truthy, and its requests are exactly the execution module's. |
| `PushoverState.ReturnedMeansReportedSent` | src/saltext/pushover/states/pushover.py:126-131 | With this plugin's execution module as the delegate, a delegating state that returns always reports True with "Sent message: {name}". |
| `PushoverState.RejectedUserReportedAsSent` | src/saltext/pushover/states/pushover.py:115-131 | Whenever validate_user returns a rejection, whatever its message, the state still yields result True and "Sent message", after the user validation request alone. |
| `PushoverState.ChaosCall` | tests/unit/states/test_pushover.py:30-44 | `post_message("event", "user", message="Chaos is a ladder")` forwards user "user", the message, priority 0 and None for the rest, and sends no sound. When that call returns something truthy, the state returns result True with "Sent message: event" and exactly its requests. In test mode it calls nothing and returns result None, with a comment holding the message and "is to be sent". |
| `PushoverReturner.Terminated` | src/saltext/pushover/returners/pushover_returner.py:178 | Lines joined with CRLF terminators end in CRLF when there is at least one line, and take at least two characters per line. |
| `PushoverReturner.FirstCr` | src/saltext/pushover/returners/pushover_returner.py:178 | The index found is that of the first carriage return, or the length when there is none. |
| `PushoverReturner.LinesOfTerminated` | src/saltext/pushover/returners/pushover_returner.py:178-184 | Reading CRLF-terminated lines back gives the lines, when none holds a carriage return. |
| `PushoverReturner.Body` | src/saltext/pushover/returners/pushover_returner.py:178-184 | The message body has at least the five CRLF terminators' ten characters and ends in CRLF. |
| `PushoverReturner.BodyLayout` | src/saltext/pushover/returners/pushover_returner.py:178-184 | The body reads back as exactly five lines: "id: ", "function: ", "function args: ", "jid: ", "return: ", each followed by its field, in that order. |
| `PushoverReturner.PostForReturn` | src/saltext/pushover/returners/pushover_returner.py:91-146 | The first request validates the user. A rejected user dict comes back unchanged with no further request. An accepted user hands over to the shared sending tail, whose query dict is returned as is. |
| `PushoverReturner.TitlePassedThrough` | src/saltext/pushover/returners/pushover_returner.py:120-131 | The returner's form carries the title exactly as given, even when it is None or empty. |
| `PushoverApi.Reply.Res` | src/saltext/pushover/returners/pushover_returner.py:199 | `result["res"]` raises `KeyError("res")` exactly when the dict has no "res" key, which is the validate_user dict. On a query dict it gives that dict's `res`. |
| `PushoverReturner.Conclude` | src/saltext/pushover/returners/pushover_returner.py:198-201 | `result["res"]` on the validate_user dict raises `KeyError`. On a query dict, no info-level line is written exactly when `res` is true. When `res` is false, an info line carries the dict's message. The debug line with the dict is written in every case and is not modelled. |
| `PushoverReturner.Returner` | src/saltext/pushover/returners/pushover_returner.py:149-201 | A falsy token raises, then a falsy user, then priority 2 with neither expire nor retry, all before any request. Nothing is sent exactly when one of these refuses. Past them, exactly `_post_message`'s requests are sent and its dict is concluded. |
| `PushoverReturner.RejectedUserRaisesKeyError` | src/saltext/pushover/returners/pushover_returner.py:186-201 | A rejected user key makes the returner raise `KeyError("res")` after the user validation request alone. |
| `PushoverReturner.AcceptedUserSendsBody` | src/saltext/pushover/returners/pushover_returner.py:116-146 | After an accepted user key: the user request, the sound check for a truthy sound, then the body in the message form. The outcome is quiet, or the query's exception. |
| `PushoverReturner.EmergencyNeedsOneOf` | src/saltext/pushover/returners/pushover_returner.py:171-175 | With credentials present and priority 2, the returner goes ahead exactly when expire or retry is truthy. |
| `PushoverReturner.NeverLogsError` | src/saltext/pushover/returners/pushover_returner.py:198-201 | As written, the returner never logs a failed send at info level. |

## Left out

- Network I/O and `salt.utils.http.query`. The HTTP helper is an oracle from request to result. Its result keeps only what the code reads: the status key, whether a "response" key exists, and the decoded body's status, sound names and errors.
- Cookies, `persist_session`, `opts`, `text` and the JSON decode type passed to the HTTP helper. Headers other than the content type. None of these changes a decision.
- `config.get` and `salt.returners.get_returner_options`, with its profiles and overrides. The returner's `_get_options` (pushover_returner.py:48-88) is not modelled, so its default priority "0" is not applied here. Configuration is an oracle, and the returner takes its options already resolved.
- `urllib.parse.urlencode` and `urljoin`. Forms are ordered key/value sequences. The URL is "https://api.pushover.net/1/" followed by the path, because `api_version` is always "1".
- `pprint.pformat` of the return data and `str()` of the function arguments. They are opaque strings.
- PushoverReturner.BodyLayout: stated only when no field contains a carriage return. A field holding CRLF breaks the line structure, and the body is then still the formatted text but no longer reads back as five lines.
- Logging beyond whether the returner writes its info line, and the debug log of the result.
- The `__virtual__` functions and the `__virtualname__` registration.
- `api_version` and `token` arguments that `query` and the senders accept but never read.
- Floating-point argument values. Values are None, bool, int or str.
- The template modules states/pushover_mod.py and returners/pushover_mod.py, and the placeholder tests for an `example_function`.
- The unit test's expectation that the state forwards `priority=None` (tests/unit/states/test_pushover.py:45-54). It contradicts the state's default of 0 (states/pushover.py:39), and the model forwards the state's priority unchanged.

=== FILE: pushover_api.dfy ===
/**
 The Pushover API client shared by every entry point (utils/pushover.py):
 the fixed function table of `query`, the request it issues, how it
 classifies the HTTP helper's result, and the two validators built on it.
 The HTTP helper itself is an oracle `Network` from the request issued to
 the decoded result; every operation reports the requests it sent, in order.
 */
module PushoverApi {
  import opened Py
  import opened PushoverForm

  /** The API root: `urljoin("https://api.pushover.net", "1/")`. */
  const ApiRoot: string := "https://api.pushover.net/1/"

  const FormEncoded: string := "application/x-www-form-urlencoded"

  /** One row of the function table: the request path and the result key checked for 0. */
  datatype Endpoint = Endpoint(request: string, response: string)

  /** The function table of `query`; `None` is what `dict.get` gives for an unknown name. */
  function Endpoints(name: string): Option<Endpoint>
  {
    if name == "message" then Some(Endpoint("messages.json", "status"))
    else if name == "validate_user" then Some(Endpoint("users/validate.json", "status"))
    else if name == "validate_sound" then Some(Endpoint("sounds.json", "status"))
    else None
  }

  /** The URL `query` addresses for an API function. */
  function Url(name: string): (u: Option<string>)
    ensures u.Some? <==> name in {"message", "validate_user", "validate_sound"}
    ensures u.Some? ==> |ApiRoot| < |u.value| && u.value[..|ApiRoot|] == ApiRoot
    ensures name == "message" ==> u == Some(ApiRoot + "messages.json")
    ensures name == "validate_user" ==> u == Some(ApiRoot + "users/validate.json")
    ensures name == "validate_sound" ==> u == Some(ApiRoot + "sounds.json")
  {
    match Endpoints(name)
    case None => None
    case Some(e) => Some(ApiRoot + e.request)
  }

  /** The API function a URL addresses: the table read backwards. */
  function Route(url: string): Option<string>
  {
    if url == ApiRoot + "messages.json" then Some("message")
    else if url == ApiRoot + "users/validate.json" then Some("validate_user")
    else if url == ApiRoot + "sounds.json" then Some("validate_sound")
    else None
  }

  /** The table routes every function to its own URL, and no other URL is addressed. */
  lemma RouteInvertsUrl(name: string, url: string)
    ensures Url(name) == Some(url) <==> Route(url) == Some(name)
  {
  }

  /** What the HTTP helper is asked to do. */
  datatype Request = Request(
    url: string,
    verb: string,
    contentType: Option<string>,  // the Content-Type entry of `header_dict`, if any
    params: Form,                 // query-string parameters
    data: Option<Form>,           // the urlencoded body, if any
    decode: bool)                 // whether the body is decoded as JSON

  /** The decoded JSON body (the "dict" entry): only the keys the client reads.
      An absent "dict" entry reads as an empty object. An absent "status" is `Nil`:
      the validators default it to "" and None, and neither equals 1. */
  datatype ApiJson = ApiJson(
    status: Value,
    sounds: Option<set<string>>,  // the keys of the "sounds" object
    errors: Option<seq<string>>)

  /** The dict the HTTP helper returns: its "status" key (the HTTP status code),
      whether it has a "response" key, and the decoded body. */
  datatype HttpResult = HttpResult(status: Option<int>, hasResponseKey: bool, body: ApiJson)

  /** The HTTP helper, as an oracle. */
  type Network = Request -> HttpResult

  /** An operation's outcome together with the requests it sent, in order. */
  datatype Call<+T> = Call(outcome: Outcome<T>, sent: seq<Request>)

  /** The dict `query` returns: `{"message": <HTTP result>, "res": ...}`. */
  datatype QueryReply = QueryReply(res: bool, message: HttpResult)

  /** The dict `validate_sound` returns: `{"message": ..., "res": ...}`. */
  datatype SoundCheck = SoundCheck(res: bool, message: string)

  /** The dict `validate_user` returns: `{"message": ..., "result": ...}`. */
  datatype UserCheck = UserCheck(result: bool, message: string)

  /** A dict handed back to a caller of the send path. */
  datatype Reply = UserReply(check: UserCheck) | QueryDict(reply: QueryReply)
  {
    /** The dict's keys, in insertion order. */
    function Keys(): seq<string>
    {
      match this
      case UserReply(_) => ["message", "result"]
      case QueryDict(_) => ["message", "res"]
    }

    /** `d["res"]`. */
    function Res(): (r: Outcome<bool>)
      ensures r.Raised? <==> "res" !in Keys()
      ensures r.Raised? ==> r.exn == KeyError("res")
      ensures QueryDict? ==> r == Returned(reply.res)
    {
      match this
      case UserReply(_) => Raised(KeyError("res"))
      case QueryDict(q) => Returned(q.res)
    }
  }

  /** `query` returns rather than raises on this result: the status is 200, or
      there is no "response" key for the unbound local to be read behind. */
  predicate Answered(h: HttpResult)
  {
    h.status == Some(200) || !h.hasResponseKey
  }

  /** The two checks both validators make: the result has a "status" key and the
      decoded body's "status" equals 1. */
  predicate Confirmed(h: HttpResult)
  {
    h.status.Some? && EqualsInt(h.body.status, 1)
  }

  /** How `query` turns the HTTP helper's result into its reply. The key it checks
      for 0 is the table's "status" for every function, that is, the HTTP status. */
  function Classify(h: HttpResult): (r: Outcome<QueryReply>)
    ensures r.Returned? <==> Answered(h)
    ensures r.Raised? ==> r.exn == UnboundLocalError("response")
    ensures r.Returned? ==> r.value.res && r.value.message == h
  {
    var ret := QueryReply(true, h);
    if h.status == Some(200) then
      if h.status.Some? && h.status.value == 0 then Returned(ret.(res := false)) else Returned(ret)
    else if h.hasResponseKey then
      // the branch for a non-200 status reads `response`, assigned only on the 200 branch
      Raised(UnboundLocalError("response"))
    else
      Returned(ret)
  }

  /** `query(function, method=..., header_dict=..., data=..., query_params=...)`. */
  function Query(name: string, verb: string, contentType: Option<string>, data: Option<Form>, params: Form, net: Network): (r: Call<QueryReply>)
    ensures Url(name).None? ==> r == Call(Raised(AttributeError), [])
    ensures Url(name).Some? ==> r.sent == [Request(Url(name).value, verb, contentType, params, data, verb != "DELETE")]
    ensures Url(name).Some? ==> r.outcome == Classify(net(r.sent[0]))
    ensures r.outcome.Returned? ==> r.outcome.value == QueryReply(true, net(r.sent[0]))
  {
    match Url(name)
    case None => Call(Raised(AttributeError), [])
    case Some(url) =>
      var decode := if verb == "DELETE" then false else true;
      var req := Request(url, verb, contentType, params, data, decode);
      Call(Classify(net(req)), [req])
  }

  /** `sound in sounds`, where a missing "sounds" key reads as `""` and `x in ""`
      raises unless `x` is a str. A sound list holds only str keys. */
  function SoundIn(sound: Value, sounds: Option<set<string>>): (r: Outcome<bool>)
    ensures r.Returned? && r.value ==> sound.Str?
    ensures sounds.Some? ==> r == Returned(sound.Str? && sound.s in sounds.value)
    ensures sounds.None? && Truthy(sound) ==> r != Returned(true)
    ensures r.Raised? <==> sounds.None? && !sound.Str?
    ensures r.Raised? ==> r.exn == TypeError
    ensures sounds.None? && sound.Str? ==> r == Returned(sound.s == "")
  {
    match sounds
    case Some(names) => Returned(sound.Str? && sound.s in names)
    case None => if sound.Str? then Returned(sound.s == "") else Raised(TypeError)
  }

  /** The request `validate_sound` sends. */
  function SoundRequest(token: Value): Request
  {
    Request(ApiRoot + "sounds.json", "GET", None, [(Token, token)], None, true)
  }

  /** `validate_sound(sound, token)`. */
  function ValidateSound(sound: Value, token: Value, net: Network): (r: Call<SoundCheck>)
    ensures r.sent == [SoundRequest(token)]
    ensures var h := net(SoundRequest(token));
      (r.outcome.Returned? && r.outcome.value.res) <==> Answered(h) && Confirmed(h) && SoundIn(sound, h.body.sounds) == Returned(true)
    ensures r.outcome.Returned? && r.outcome.value.res ==> r.outcome.value.message == "Valid sound " + Show(sound) + "."
    ensures var h := net(SoundRequest(token));
      Answered(h) && Confirmed(h) && SoundIn(sound, h.body.sounds) == Returned(false) ==>
        r.outcome == Returned(SoundCheck(false, "Warning: " + Show(sound) + " not a valid sound."))
    ensures var h := net(SoundRequest(token));
      Answered(h) && Confirmed(h) && SoundIn(sound, h.body.sounds).Raised? ==> r.outcome == Raised(TypeError)
    ensures var h := net(SoundRequest(token));
      Answered(h) && h.status.Some? && !EqualsInt(h.body.status, 1) ==>
        r.outcome == if h.body.errors.Some? then Returned(SoundCheck(false, Join(h.body.errors.value))) else Raised(TypeError)
    ensures var h := net(SoundRequest(token));
      Answered(h) && h.status.None? ==> r.outcome == Returned(SoundCheck(false, "Sound is invalid"))
    ensures !Answered(net(SoundRequest(token))) ==> r.outcome == Raised(UnboundLocalError("response"))
  {
    var ret := SoundCheck(false, "Sound is invalid");
    var q := Query("validate_sound", "GET", None, None, [(Token, token)], net);
    match q.outcome
    case Raised(e) => Call(Raised(e), q.sent)
    case Returned(response) =>
      if !response.res then Call(Returned(ret), q.sent)
      else
        var m := response.message;
        if m.status.None? then Call(Returned(ret), q.sent)
        else if EqualsInt(m.body.status, 1) then
          match SoundIn(sound, m.body.sounds)
          case Raised(e) => Call(Raised(e), q.sent)
          case Returned(found) =>
            if found then Call(Returned(SoundCheck(true, "Valid sound " + Show(sound) + ".")), q.sent)
            else Call(Returned(SoundCheck(false, "Warning: " + Show(sound) + " not a valid sound.")), q.sent)
        else
          match m.body.errors
          case None => Call(Raised(TypeError), q.sent)  // "".join(None)
          case Some(errors) => Call(Returned(ret.(message := Join(errors))), q.sent)
  }
  /** The request `validate_user` sends. */
  function UserRequest(user: Value, device: Value, token: Value): Request
  {
    Request(ApiRoot + "users/validate.json", "POST", Some(FormEncoded), [], Some(UserForm(user, device, token)), true)
  }

  /** `validate_user(user, device, token)`. */
  function ValidateUser(user: Value, device: Value, token: Value, net: Network): (r: Call<UserCheck>)
    ensures r.sent == [UserRequest(user, device, token)]
    ensures var h := net(UserRequest(user, device, token));
      (r.outcome.Returned? && r.outcome.value.result) <==> Answered(h) && Confirmed(h)
    ensures r.outcome.Returned? && r.outcome.value.result ==> r.outcome.value.message == "User key is valid."
    ensures var h := net(UserRequest(user, device, token));
      Answered(h) && h.status.Some? && !EqualsInt(h.body.status, 1) ==>
        r.outcome == if h.body.errors.Some? then Returned(UserCheck(false, Join(h.body.errors.value))) else Raised(TypeError)
    ensures var h := net(UserRequest(user, device, token));
      Answered(h) && h.status.None? ==> r.outcome == Returned(UserCheck(false, "User key is invalid"))
    ensures !Answered(net(UserRequest(user, device, token))) ==> r.outcome == Raised(UnboundLocalError("response"))
  {
    var res := UserCheck(false, "User key is invalid");
    var q := Query("validate_user", "POST", Some(FormEncoded), Some(UserForm(user, device, token)), [], net);
    match q.outcome
    case Raised(e) => Call(Raised(e), q.sent)
    case Returned(response) =>
      if !response.res then Call(Returned(res), q.sent)
      else
        var m := response.message;
        if m.status.None? then Call(Returned(res), q.sent)
        else if EqualsInt(m.body.status, 1) then Call(Returned(UserCheck(true, "User key is valid.")), q.sent)
        else
          match m.body.errors
          case None => Call(Raised(TypeError), q.sent)
          case Some(errors) => Call(Returned(UserCheck(false, Join(errors))), q.sent)
  }
  /** The request that sends a message. */
  function MessageRequest(form: Form): Request
  {
    Request(ApiRoot + "messages.json", "POST", Some(FormEncoded), [], Some(form), true)
  }

  /** Posting a form to the "message" function sends exactly its message request. */
  lemma PostIsMessageRequest(form: Form, net: Network)
    ensures Query("message", "POST", Some(FormEncoded), Some(form), [], net)
         == Call(Classify(net(MessageRequest(form))), [MessageRequest(form)])
  {
    assert |"POST"| != |"DELETE"|;
  }

  /** The sound check of either sender raises. */
  predicate SoundCheckRaises(sound: Value, token: Value, net: Network)
  {
    Truthy(sound) && ValidateSound(sound, token, net).outcome.Raised?
  }

  /** Either sender adds the sound: it is truthy and `validate_sound` accepts it. */
  predicate SoundAdded(sound: Value, token: Value, net: Network)
  {
    Truthy(sound) && ValidateSound(sound, token, net).outcome.Returned? && ValidateSound(sound, token, net).outcome.value.res
  }

  /** The tail both senders share: build the form, validate a truthy sound and add
      it when accepted, then post the form to messages.json. */
  function Deliver(p: Fields, sound: Value, net: Network): (r: Call<QueryReply>)
    ensures SoundCheckRaises(sound, p.token, net) ==>
      r == Call(Raised(ValidateSound(sound, p.token, net).outcome.exn), [SoundRequest(p.token)])
    ensures !SoundCheckRaises(sound, p.token, net) ==>
      var posted := MessageForm(p, sound, SoundAdded(sound, p.token, net));
      && r.sent == (if Truthy(sound) then [SoundRequest(p.token)] else []) + [MessageRequest(posted)]
      && r.outcome == Classify(net(MessageRequest(posted)))
  {
    var parameters := Keep(MessageSlots(p));
    MessageFormEndsWithSound(p, sound, true);
    MessageFormEndsWithSound(p, sound, false);
    if Truthy(sound) then
      var vs := ValidateSound(sound, p.token, net);
      match vs.outcome
      case Raised(e) => Call(Raised(e), vs.sent)
      case Returned(check) =>
        var posted := if check.res then parameters + [(Sound, sound)] else parameters;
        assert posted == MessageForm(p, sound, check.res);
        assert check.res == SoundAdded(sound, p.token, net);
        var q := Query("message", "POST", Some(FormEncoded), Some(posted), [], net);
        PostIsMessageRequest(posted, net);
        Call(q.outcome, vs.sent + q.sent)
    else
      assert parameters + [] == parameters;
      assert parameters == MessageForm(p, sound, false);
      PostIsMessageRequest(parameters, net);
      Query("message", "POST", Some(FormEncoded), Some(parameters), [], net)
  }
}

=== FILE: pushover_form.dfy ===
/**
 The parameter dicts the senders build (pushover_notify.py, pushover_returner.py
 and utils/pushover.py): which keys are inserted, with which values, in which order.
 */
module PushoverForm {
  import opened Py

  /** The parameter names the client ever sends, in the order the message senders insert them. */
  datatype Key = User | Device | Token | Title | Priority | Expire | Retry | Message | Sound
  {
    /** The position of the key in the senders' insertion order. */
    function Rank(): nat
    {
      match this
      case User => 0
      case Device => 1
      case Token => 2
      case Title => 3
      case Priority => 4
      case Expire => 5
      case Retry => 6
      case Message => 7
      case Sound => 8
    }
  }

  /** Form or query parameters as a Python dict built key by key: pairs in insertion order. */
  type Form = seq<(Key, Value)>
  /** The form `validate_user` posts: user and token always, device only when truthy. */
  function UserForm(user: Value, device: Value, token: Value): (f: Form)
    ensures |f| == (if Truthy(device) then 3 else 2)
    ensures f[0] == (User, user) && f[1] == (Token, token)
    ensures |f| == 3 ==> f[2] == (Device, device)
  {
    [(User, user), (Token, token)] + if Truthy(device) then [(Device, device)] else []
  }
  /** No key of the form occurs twice, and keys occur in the senders' insertion order. */
  predicate InKeyOrder(f: Form)
  {
    forall i, j :: 0 <= i < j < |f| ==> f[i].0.Rank() < f[j].0.Rank()
  }

  /** One `parameters[key] = value` of a sender, guarded by whether it is executed. */
  datatype Slot = Slot(key: Key, value: Value, present: bool)

  /** The entry a guarded insertion contributes: itself when executed, nothing otherwise. */
  function Entry(slot: Slot): Form
  {
    if slot.present then [(slot.key, slot.value)] else []
  }

  /** The dict a sequence of guarded insertions builds. */
  function Keep(slots: seq<Slot>): Form
  {
    if slots == [] then [] else Entry(slots[0]) + Keep(slots[1..])
  }

  /** An entry is in the built dict exactly when its insertion was executed. */
  lemma {:induction false} KeepHas(slots: seq<Slot>, k: Key, v: Value)
    ensures (k, v) in Keep(slots) <==> Slot(k, v, true) in slots
    decreases |slots|
  {
    if slots != [] {
      KeepHas(slots[1..], k, v);
      assert slots == [slots[0]] + slots[1..];
    }
  }

  /** Insertions in strictly increasing key rank build a dict in key order. */
  predicate Ascending(slots: seq<Slot>)
  {
    forall i :: 0 < i < |slots| ==> slots[i - 1].key.Rank() < slots[i].key.Rank()
  }

  /** An entry ranked below every entry of a dict in key order extends it in key order at the front. */
  lemma PrependInKeyOrder(e: (Key, Value), f: Form)
    requires InKeyOrder(f)
    requires forall i :: 0 <= i < |f| ==> e.0.Rank() < f[i].0.Rank()
    ensures InKeyOrder([e] + f)
  {
    var g := [e] + f;
    forall i, j | 0 <= i < j < |g|
      ensures g[i].0.Rank() < g[j].0.Rank()
    {
      assert g[j] == f[j - 1];
      if i > 0 {
        assert g[i] == f[i - 1];
      }
    }
  }

  /** Ascending insertions build a dict in key order whose keys rank no lower than the first insertion. */
  lemma {:induction false} KeepInKeyOrder(slots: seq<Slot>)
    requires Ascending(slots)
    ensures InKeyOrder(Keep(slots))
    ensures slots != [] ==> forall i :: 0 <= i < |Keep(slots)| ==> slots[0].key.Rank() <= Keep(slots)[i].0.Rank()
    decreases |slots|
  {
    if slots != [] {
      var rest := slots[1..];
      assert Ascending(rest);
      KeepInKeyOrder(rest);
      var tail := Keep(rest);
      assert rest != [] ==> slots[0].key.Rank() < rest[0].key.Rank();
      assert forall i :: 0 <= i < |tail| ==> slots[0].key.Rank() < tail[i].0.Rank();
      if slots[0].present {
        var e := (slots[0].key, slots[0].value);
        assert Keep(slots) == [e] + tail;
        PrependInKeyOrder(e, tail);
      } else {
        assert Keep(slots) == tail;
      }
    }
  }

  /** The values a sender puts in the message form, after defaults are applied. */
  datatype Fields = Fields(user: Value, device: Value, token: Value, title: Value, priority: Value,
                           expire: Value, retry: Value, message: Value)

  /** The insertions both senders make before the sound is considered, in their order. */
  function MessageSlots(p: Fields): seq<Slot>
  {
    [Slot(User, p.user, true), Slot(Device, p.device, p.device != Nil), Slot(Token, p.token, true),
     Slot(Title, p.title, true), Slot(Priority, p.priority, true), Slot(Expire, p.expire, p.expire != Nil),
     Slot(Retry, p.retry, p.retry != Nil), Slot(Message, p.message, true)]
  }

  /** Two runs of guarded insertions build the concatenation of their dicts. */
  lemma {:induction false} KeepConcat(first: seq<Slot>, second: seq<Slot>)
    ensures Keep(first + second) == Keep(first) + Keep(second)
    decreases |first|
  {
    var both := first + second;
    if first == [] {
      assert both == second;
    } else {
      assert both[0] == first[0];
      assert both[1..] == first[1..] + second;
      KeepConcat(first[1..], second);
      calc {
        Keep(both);
        Entry(first[0]) + Keep(first[1..] + second);
        Entry(first[0]) + (Keep(first[1..]) + Keep(second));
        (Entry(first[0]) + Keep(first[1..])) + Keep(second);
      }
    }
  }

  /** Four guarded insertions build their executed entries in order. */
  lemma KeepFour(a: Slot, b: Slot, c: Slot, d: Slot)
    ensures Keep([a, b, c, d]) == Entry(a) + Entry(b) + Entry(c) + Entry(d)
  {
    assert [d][1..] == [];
    assert Keep([d]) == Entry(d);
    assert [c, d][1..] == [d];
    assert Keep([c, d]) == Entry(c) + Entry(d);
    assert [b, c, d][1..] == [c, d];
    assert Keep([b, c, d]) == Entry(b) + (Entry(c) + Entry(d));
    assert [a, b, c, d][1..] == [b, c, d];
  }

  /** The message form before the sound, entry by entry: user, then device when it is
      not None, token, title, priority, then expire and retry when they are not None,
      then the message. */
  lemma MessageSlotsLayout(p: Fields)
    ensures Keep(MessageSlots(p)) ==
      [(User, p.user)] + (if p.device != Nil then [(Device, p.device)] else [])
      + [(Token, p.token), (Title, p.title), (Priority, p.priority)]
      + (if p.expire != Nil then [(Expire, p.expire)] else [])
      + (if p.retry != Nil then [(Retry, p.retry)] else [])
      + [(Message, p.message)]
  {
    var s := MessageSlots(p);
    assert s == [s[0], s[1], s[2], s[3]] + [s[4], s[5], s[6], s[7]];
    KeepConcat([s[0], s[1], s[2], s[3]], [s[4], s[5], s[6], s[7]]);
    KeepFour(s[0], s[1], s[2], s[3]);
    KeepFour(s[4], s[5], s[6], s[7]);
    var dev := if p.device != Nil then [(Device, p.device)] else [];
    var exp := if p.expire != Nil then [(Expire, p.expire)] else [];
    var ret := if p.retry != Nil then [(Retry, p.retry)] else [];
    assert Keep([s[0], s[1], s[2], s[3]]) == [(User, p.user)] + dev + [(Token, p.token), (Title, p.title)];
    assert Keep([s[4], s[5], s[6], s[7]]) == [(Priority, p.priority)] + exp + ret + [(Message, p.message)];
  }

  /** Whether the message senders insert `(k, v)`: user, token, title, priority and
      message always; device, expire and retry when they are not None; the sound
      when it has been accepted. */
  predicate Inserted(p: Fields, sound: Value, withSound: bool, k: Key, v: Value)
  {
    match k
    case User => v == p.user
    case Device => p.device != Nil && v == p.device
    case Token => v == p.token
    case Title => v == p.title
    case Priority => v == p.priority
    case Expire => p.expire != Nil && v == p.expire
    case Retry => p.retry != Nil && v == p.retry
    case Message => v == p.message
    case Sound => withSound && v == sound
  }

  /** The message form both senders post: exactly the inserted entries, each key
      at most once, in insertion order. */
  function MessageForm(p: Fields, sound: Value, withSound: bool): (f: Form)
    ensures forall k, v :: (k, v) in f <==> Inserted(p, sound, withSound, k, v)
    ensures InKeyOrder(f)
  {
    var slots := MessageSlots(p) + [Slot(Sound, sound, withSound)];
    forall k, v ensures (k, v) in Keep(slots) <==> Inserted(p, sound, withSound, k, v) {
      KeepHas(slots, k, v);
    }
    assert Ascending(slots);
    KeepInKeyOrder(slots);
    Keep(slots)
  }

  /** The sound, when accepted, is the last entry of the message form. */
  lemma MessageFormEndsWithSound(p: Fields, sound: Value, withSound: bool)
    ensures MessageForm(p, sound, withSound) == Keep(MessageSlots(p)) + if withSound then [(Sound, sound)] else []
  {
    KeepConcat(MessageSlots(p), [Slot(Sound, sound, withSound)]);
  }

  /** Without device, expire, retry or an accepted sound, the message form is
      exactly user, token, title, priority and message, in that order. */
  lemma PlainMessageForm(p: Fields, sound: Value)
    requires p.device == Nil && p.expire == Nil && p.retry == Nil
    ensures MessageForm(p, sound, false)
         == [(User, p.user), (Token, p.token), (Title, p.title), (Priority, p.priority), (Message, p.message)]
  {
    MessageFormEndsWithSound(p, sound, false);
    MessageSlotsLayout(p);
  }
}

=== FILE: pushover_notify.dfy ===
/**
 The execution module's `post_message` (modules/pushover_notify.py): resolve
 token and user from configuration, check every argument before any request,
 validate the user key, build the message form and send it. Configuration
 lookups are an oracle `Config` from key to value.
 */
module PushoverNotify {
  import opened Py
  import opened PushoverForm
  import opened PushoverApi

  /** `config.get(key)`, as an oracle; a missing key reads as `Nil`. */
  type Config = string -> Value

  const TokenUnavailable: string := "Pushover token is unavailable."
  const UserUnavailable: string := "Pushover user key is unavailable."
  const MessageMissing: string := "Required parameter \"message\" is missing."
  const EmergencyUnset: string := "Emergency messages require `expire` and `retry` parameters to be set"
  const RetryTooShort: string := "`retry` needs to be at least 30 (seconds)"
  const DefaultTitle: string := "Message from SaltStack"

  function InvalidPriority(priority: Value): string
  {
    "Invalid priority " + Show(priority) + ". Needs to be an integer between -2 and 2 (inclusive)"
  }

  /** The keyword arguments of `post_message`; `api_version` is accepted and never read. */
  datatype Args = Args(user: Value, device: Value, message: Value, title: Value, priority: Value,
                       expire: Value, retry: Value, sound: Value, token: Value)

  /** The keyword defaults of `post_message`: priority 0, everything else None. */
  const Defaults: Args := Args(Nil, Nil, Nil, Nil, Int(0), Nil, Nil, Nil, Nil)

  /** The argument when it is truthy, else `config.get("pushover.<option>") or config.get("pushover:<option>")`. */
  function Configured(given: Value, config: Config, option: string): (r: Value)
    ensures Truthy(r) <==> Truthy(given) || Truthy(config("pushover." + option)) || Truthy(config("pushover:" + option))
    ensures Truthy(given) ==> r == given
    ensures !Truthy(given) && Truthy(config("pushover." + option)) ==> r == config("pushover." + option)
    ensures !Truthy(given) && !Truthy(config("pushover." + option)) ==> r == config("pushover:" + option)
  {
    if Truthy(given) then given else Or(config("pushover." + option), config("pushover:" + option))
  }

  /** The arguments with token and user taken from configuration where they are falsy. */
  function Resolved(args: Args, config: Config): Args
  {
    args.(token := Configured(args.token, config, "token"), user := Configured(args.user, config, "user"))
  }

  /** Arguments `post_message` sends: credentials and message present, priority
      in -2..2, an emergency message with both expire and retry, and a retry, when
      given, a number of at least 30. */
  predicate Acceptable(a: Args)
  {
    && Truthy(a.token) && Truthy(a.user) && Truthy(a.message)
    && InRange(a.priority, -2, 3)
    && (EqualsInt(a.priority, 2) ==> Truthy(a.expire) && Truthy(a.retry))
    && (Truthy(a.retry) ==> Numeric(a.retry).Some? && Numeric(a.retry).value >= 30)
  }

  /** The checks `post_message` makes, in order, before any request. */
  function Validate(args: Args, config: Config): (r: Outcome<Args>)
    ensures r.Returned? <==> Acceptable(Resolved(args, config))
    ensures r.Returned? ==> r.value == Resolved(args, config)
    ensures r.Raised? ==> r.exn.InvocationError? || r.exn == TypeError
    ensures r.Raised? && r.exn == TypeError ==> Truthy(args.retry) && Numeric(args.retry).None?
    ensures !Truthy(Resolved(args, config).token) ==> r == Raised(InvocationError(TokenUnavailable))
    ensures Truthy(Resolved(args, config).token) && !Truthy(Resolved(args, config).user) ==>
      r == Raised(InvocationError(UserUnavailable))
    ensures Truthy(Resolved(args, config).token) && Truthy(Resolved(args, config).user) && !Truthy(args.message) ==>
      r == Raised(InvocationError(MessageMissing))
    ensures (Truthy(Resolved(args, config).token) && Truthy(Resolved(args, config).user) && Truthy(args.message)
             && !InRange(args.priority, -2, 3)) ==> r == Raised(InvocationError(InvalidPriority(args.priority)))
    ensures (Truthy(Resolved(args, config).token) && Truthy(Resolved(args, config).user) && Truthy(args.message)
             && InRange(args.priority, -2, 3) && EqualsInt(args.priority, 2) && !(Truthy(args.expire) && Truthy(args.retry)))
            ==> r == Raised(InvocationError(EmergencyUnset))
    ensures (Truthy(Resolved(args, config).token) && Truthy(Resolved(args, config).user) && Truthy(args.message)
             && InRange(args.priority, -2, 3) && !(EqualsInt(args.priority, 2) && !(Truthy(args.expire) && Truthy(args.retry)))
             && Truthy(args.retry) && Numeric(args.retry).Some? && Numeric(args.retry).value < 30)
            ==> r == Raised(InvocationError(RetryTooShort))
    ensures (Truthy(Resolved(args, config).token) && Truthy(Resolved(args, config).user) && Truthy(args.message)
             && InRange(args.priority, -2, 3) && !(EqualsInt(args.priority, 2) && !(Truthy(args.expire) && Truthy(args.retry)))
             && Truthy(args.retry) && Numeric(args.retry).None?)
            ==> r == Raised(TypeError)
  {
    var token := Configured(args.token, config, "token");
    if !Truthy(token) then Raised(InvocationError(TokenUnavailable))
    else
      var user := Configured(args.user, config, "user");
      if !Truthy(user) then Raised(InvocationError(UserUnavailable))
      else if !Truthy(args.message) then Raised(InvocationError(MessageMissing))
      else if !InRange(args.priority, -2, 3) then Raised(InvocationError(InvalidPriority(args.priority)))
      else if EqualsInt(args.priority, 2) && !(Truthy(args.expire) && Truthy(args.retry)) then
        Raised(InvocationError(EmergencyUnset))
      else if Truthy(args.retry) then
        match LessThan(args.retry, 30)
        case Raised(e) => Raised(e)
        case Returned(short) =>
          if short then Raised(InvocationError(RetryTooShort)) else Returned(args.(token := token, user := user))
      else Returned(args.(token := token, user := user))
  }

  /** The fields `post_message` puts in the message form: the validated arguments
      with the title defaulted when it is falsy. */
  function Outgoing(a: Args): (p: Fields)
    ensures Truthy(p.title)
    ensures Truthy(a.title) ==> p.title == a.title
    ensures !Truthy(a.title) ==> p.title == Str(DefaultTitle)
    ensures p.user == a.user && p.device == a.device && p.token == a.token && p.priority == a.priority
    ensures p.expire == a.expire && p.retry == a.retry && p.message == a.message
  {
    var title := if Truthy(a.title) then a.title else Str(DefaultTitle);
    Fields(a.user, a.device, a.token, title, a.priority, a.expire, a.retry, a.message)
  }

  /** What `post_message` returns: `True`, or a dict describing the failure. */
  datatype Notified = Delivered | NotDelivered(reply: Reply)

  /** `True` when the query reports success, otherwise the query's own dict. */
  function Verdict(q: QueryReply): (n: Notified)
    ensures n == Delivered <==> q.res
    ensures n != Delivered ==> n.reply == QueryDict(q)
  {
    if q.res then Delivered else NotDelivered(QueryDict(q))
  }

  /** The execution module's `post_message`. */
  function PostMessage(args: Args, config: Config, net: Network): (r: Call<Notified>)
    // every argument check precedes every request
    ensures Validate(args, config).Raised? ==> r == Call(Raised(Validate(args, config).exn), [])
    ensures r.sent == [] <==> Validate(args, config).Raised?
    ensures Validate(args, config).Returned? ==>
      var a := Validate(args, config).value;
      r.sent[0] == UserRequest(a.user, a.device, a.token)
    // a raising user validation lets its exception escape, and nothing more is sent
    ensures Validate(args, config).Returned? ==>
      var a := Validate(args, config).value;
      var vu := ValidateUser(a.user, a.device, a.token, net);
      vu.outcome.Raised? ==> r == Call(Raised(vu.outcome.exn), [UserRequest(a.user, a.device, a.token)])
    // a rejected user key is handed back as is, and nothing more is sent
    ensures Validate(args, config).Returned? ==>
      var a := Validate(args, config).value;
      var vu := ValidateUser(a.user, a.device, a.token, net);
      vu.outcome.Returned? && !vu.outcome.value.result ==>
        r == Call(Returned(NotDelivered(UserReply(vu.outcome.value))), [UserRequest(a.user, a.device, a.token)])
    // an accepted user key hands over to the shared sending tail
    ensures Validate(args, config).Returned? ==>
      var a := Validate(args, config).value;
      var vu := ValidateUser(a.user, a.device, a.token, net);
      vu.outcome.Returned? && vu.outcome.value.result ==>
        var d := Deliver(Outgoing(a), a.sound, net);
        && r.sent == [UserRequest(a.user, a.device, a.token)] + d.sent
        && (d.outcome.Raised? ==> r.outcome == Raised(d.outcome.exn))
        && (d.outcome.Returned? ==> r.outcome == Returned(Verdict(d.outcome.value)))
    // a failure dict of the query is returned only when the query reports failure
    ensures r.outcome.Returned? && r.outcome.value.NotDelivered? && r.outcome.value.reply.QueryDict? ==>
      !r.outcome.value.reply.reply.res
  {
    match Validate(args, config)
    case Raised(e) => Call(Raised(e), [])
    case Returned(a) =>
      var vu := ValidateUser(a.user, a.device, a.token, net);
      match vu.outcome
      case Raised(e) => Call(Raised(e), vu.sent)
      case Returned(check) =>
        if !check.result then Call(Returned(NotDelivered(UserReply(check))), vu.sent)
        else
          var d := Deliver(Outgoing(a), a.sound, net);
          match d.outcome
          case Raised(e) => Call(Raised(e), vu.sent + d.sent)
          case Returned(q) => Call(Returned(Verdict(q)), vu.sent + d.sent)
  }

  /** An accepted user key leads to the sound check, if any, and the message:
      the form holds the validated arguments with the title defaulted, and the
      sound only when it was accepted. */
  lemma AcceptedUserPostsForm(args: Args, config: Config, net: Network)
    requires Validate(args, config).Returned?
    requires var a := Validate(args, config).value;
      var vu := ValidateUser(a.user, a.device, a.token, net);
      vu.outcome.Returned? && vu.outcome.value.result && !SoundCheckRaises(a.sound, a.token, net)
    ensures var a := Validate(args, config).value;
      var r := PostMessage(args, config, net);
      var posted := MessageRequest(MessageForm(Outgoing(a), a.sound, SoundAdded(a.sound, a.token, net)));
      && r.sent == [UserRequest(a.user, a.device, a.token)]
                   + (if Truthy(a.sound) then [SoundRequest(a.token)] else []) + [posted]
      && (Classify(net(posted)).Returned? ==> r.outcome == Returned(Verdict(Classify(net(posted)).value)))
      && (Classify(net(posted)).Raised? ==> r.outcome == Raised(Classify(net(posted)).exn))
  {
    var a := Validate(args, config).value;
    var p := Outgoing(a);
    assert p.token == a.token;
    var d := Deliver(p, a.sound, net);
    var posted := MessageRequest(MessageForm(p, a.sound, SoundAdded(a.sound, a.token, net)));
    assert d.sent == (if Truthy(a.sound) then [SoundRequest(a.token)] else []) + [posted];
    assert d.outcome == Classify(net(posted));
  }

  /** As written, `post_message` never returns a query's failure dict: the query
      either reports success or raises, so a returned value is `True` or the
      validate_user dict. */
  lemma NeverReturnsQueryFailure(args: Args, config: Config, net: Network)
    ensures var r := PostMessage(args, config, net);
      r.outcome.Returned? ==> r.outcome.value == Delivered || r.outcome.value.reply.UserReply?
  {
  }

  /** A service that accepts every request: HTTP 200 with body status 1. */
  function AcceptAll(req: Request): HttpResult
  {
    HttpResult(Some(200), false, ApiJson(Int(1), None, None))
  }

  /** Without device, expire, retry, sound or title, the message form is exactly
      user, token, the default title, priority and message, in that order. */
  lemma DefaultTitleForm(a: Args)
    requires a.device == Nil && a.expire == Nil && a.retry == Nil && !Truthy(a.title)
    ensures MessageForm(Outgoing(a), a.sound, false)
         == [(User, a.user), (Token, a.token), (Title, Str(DefaultTitle)), (Priority, a.priority), (Message, a.message)]
  {
    PlainMessageForm(Outgoing(a), a.sound);
  }

  /** Against a service that accepts everything, arguments that pass the checks
      and carry no sound are delivered: the user validation, then the message form,
      and `True`. */
  lemma AcceptAllDelivers(args: Args, config: Config)
    requires Validate(args, config).Returned? && !Truthy(args.sound)
    ensures var a := Validate(args, config).value;
      PostMessage(args, config, AcceptAll) == Call(Returned(Delivered), [
        UserRequest(a.user, a.device, a.token), MessageRequest(MessageForm(Outgoing(a), a.sound, false))])
  {
    var a := Validate(args, config).value;
    var ureq := UserRequest(a.user, a.device, a.token);
    assert Answered(AcceptAll(ureq)) && Confirmed(AcceptAll(ureq));
    var vu := ValidateUser(a.user, a.device, a.token, AcceptAll);
    assert vu == Call(Returned(UserCheck(true, "User key is valid.")), [ureq]);
    var posted := MessageRequest(MessageForm(Outgoing(a), a.sound, false));
    assert !SoundCheckRaises(a.sound, a.token, AcceptAll) && !SoundAdded(a.sound, a.token, AcceptAll);
    assert Classify(AcceptAll(posted)) == Returned(QueryReply(true, AcceptAll(posted)));
  }

  /** The arguments of the call with user "U1", token "T1" and message "hello". */
  const HelloArgs: Args := Defaults.(user := Str("U1"), message := Str("hello"), token := Str("T1"))

  /** The call with user "U1", token "T1" and message "hello", against a service
      that accepts everything, validates the user and then posts the default-title
      form, and returns `True`. */
  lemma DefaultTitleScenario(config: Config)
    ensures PostMessage(HelloArgs, config, AcceptAll) == Call(Returned(Delivered), [
        UserRequest(Str("U1"), Nil, Str("T1")),
        MessageRequest([(User, Str("U1")), (Token, Str("T1")), (Title, Str("Message from SaltStack")),
                        (Priority, Int(0)), (Message, Str("hello"))])])
  {
    assert Resolved(HelloArgs, config) == HelloArgs;
    assert Acceptable(HelloArgs);
    AcceptAllDelivers(HelloArgs, config);
    DefaultTitleForm(HelloArgs);
  }
}

=== FILE: pushover_returner.dfy ===
/**
 The returner (returners/pushover_returner.py): check the resolved options,
 lay out the job return as a five-line message body and send it through the
 returner's own `_post_message`, which passes the title through without a
 default. The resolved options are an input; `pprint.pformat` of the return
 data and `str()` of the function arguments are opaque strings.
 */
module PushoverReturner {
  import opened Py
  import opened PushoverForm
  import opened PushoverApi

  const TokenUnavailable: string := "Pushover token is unavailable."
  const UserUnavailable: string := "Pushover user key is unavailable."
  const EmergencyUnset: string := "Priority 2 requires pushover.expire and pushover.retry options."
  const Crlf: string := "\r\n"

  /** The returner options after profile and configuration resolution; an unset option is `Nil`. */
  datatype Options = Options(user: Value, device: Value, token: Value, title: Value, priority: Value,
                             expire: Value, retry: Value, sound: Value)

  /** The job return handed to the returner: `id`, `fun` and `jid` as values,
      `fun_args` as its `str()` and `return` as its `pprint.pformat`. */
  datatype Job = Job(id: Value, fun: Value, funArgs: string, jid: Value, ret: string)

  /** What the returner leaves behind at info level when it returns: nothing, or
      the error line, which carries the message of the failed send's dict (kept
      here as the whole dict). The debug line with the dict is written in both
      cases and is not modelled. */
  datatype Logged = Quiet | LoggedError(reply: QueryReply)

  /** Lines, each followed by CRLF. */
  function Terminated(lines: seq<string>): (s: string)
    ensures |s| >= 2 * |lines|
    ensures lines != [] ==> s[|s| - 2..] == Crlf
  {
    if lines == [] then "" else lines[0] + Crlf + Terminated(lines[1..])
  }

  /** The position of the first carriage return in `s`, or `|s|` when there is none. */
  function FirstCr(s: string): (i: nat)
    ensures i <= |s|
    ensures i < |s| ==> s[i] == '\r'
    ensures forall k :: 0 <= k < i ==> s[k] != '\r'
  {
    if s == [] || s[0] == '\r' then 0 else 1 + FirstCr(s[1..])
  }

  /** Reads CRLF-terminated lines back; a final piece without CRLF is kept as the last line. */
  function Lines(s: string): seq<string>
    decreases |s|
  {
    if s == [] then []
    else
      var i := FirstCr(s);
      if i + 1 < |s| && s[i + 1] == '\n' then [s[..i]] + Lines(s[i + 2..]) else [s]
  }

  /** A carriage-return-free line followed by CRLF reads back as that line, then the rest. */
  lemma LinesStep(head: string, rest: string)
    requires '\r' !in head
    ensures Lines(head + Crlf + rest) == [head] + Lines(rest)
  {
    var s := head + Crlf + rest;
    assert s == head + (Crlf + rest);
    FirstCrAfter(head, Crlf + rest);
    assert s[|head| + 1] == '\n';
    assert s[..|head|] == head;
    assert s[|head| + 2..] == rest;
  }

  /** Reading back CRLF-terminated lines gives the lines, when none holds a carriage return. */
  lemma {:induction false} LinesOfTerminated(lines: seq<string>)
    requires forall n :: 0 <= n < |lines| ==> '\r' !in lines[n]
    ensures Lines(Terminated(lines)) == lines
    decreases |lines|
  {
    if lines != [] {
      LinesStep(lines[0], Terminated(lines[1..]));
      LinesOfTerminated(lines[1..]);
      assert lines == [lines[0]] + lines[1..];
    }
  }

  /** A carriage-return-free prefix puts the first carriage return right after it. */
  lemma {:induction false} FirstCrAfter(head: string, tail: string)
    requires '\r' !in head
    requires tail != [] && tail[0] == '\r'
    ensures FirstCr(head + tail) == |head|
    decreases |head|
  {
    if head != [] {
      assert (head + tail)[1..] == head[1..] + tail;
      assert head[0] != '\r';
      FirstCrAfter(head[1..], tail);
    } else {
      assert head + tail == tail;
    }
  }

  /** The five lines of the body, in order: id, function, function args, jid, return. */
  function BodyLines(job: Job): seq<string>
  {
    ["id: " + Show(job.id), "function: " + Show(job.fun), "function args: " + job.funArgs,
     "jid: " + Show(job.jid), "return: " + job.ret]
  }

  /** The message body the returner sends. */
  function Body(job: Job): (s: string)
    ensures |s| >= 10 && s[|s| - 2..] == Crlf
  {
    Terminated(BodyLines(job))
  }

  /** When no field holds a carriage return, the body reads back as exactly five
      lines, each starting with its label, in the fixed order. */
  lemma BodyLayout(job: Job)
    requires '\r' !in Show(job.id) && '\r' !in Show(job.fun) && '\r' !in job.funArgs
    requires '\r' !in Show(job.jid) && '\r' !in job.ret
    ensures var lines := Lines(Body(job));
      && |lines| == 5
      && lines[0] == "id: " + Show(job.id)
      && lines[1] == "function: " + Show(job.fun)
      && lines[2] == "function args: " + job.funArgs
      && lines[3] == "jid: " + Show(job.jid)
      && lines[4] == "return: " + job.ret
  {
    var lines := BodyLines(job);
    assert forall n :: 0 <= n < |lines| ==> '\r' !in lines[n];
    LinesOfTerminated(lines);
  }

  /** The returner's `_post_message`: validate the user key, then build the form and send it. */
  function PostForReturn(p: Fields, sound: Value, net: Network): (r: Call<Reply>)
    ensures r.sent != [] && r.sent[0] == UserRequest(p.user, p.device, p.token)
    // a rejected user key: its dict, unchanged, and no further request
    ensures var vu := ValidateUser(p.user, p.device, p.token, net);
      vu.outcome.Returned? && !vu.outcome.value.result ==>
        r == Call(Returned(UserReply(vu.outcome.value)), [UserRequest(p.user, p.device, p.token)])
    ensures ValidateUser(p.user, p.device, p.token, net).outcome.Raised? ==>
      r == Call(Raised(ValidateUser(p.user, p.device, p.token, net).outcome.exn), [UserRequest(p.user, p.device, p.token)])
    // an accepted key: the shared sending tail, whose query dict is returned as is
    ensures var vu := ValidateUser(p.user, p.device, p.token, net);
      vu.outcome.Returned? && vu.outcome.value.result ==>
        var d := Deliver(p, sound, net);
        && r.sent == [UserRequest(p.user, p.device, p.token)] + d.sent
        && (d.outcome.Raised? ==> r.outcome == Raised(d.outcome.exn))
        && (d.outcome.Returned? ==> r.outcome == Returned(QueryDict(d.outcome.value)))
  {
    var vu := ValidateUser(p.user, p.device, p.token, net);
    match vu.outcome
    case Raised(e) => Call(Raised(e), vu.sent)
    case Returned(check) =>
      if !check.result then Call(Returned(UserReply(check)), vu.sent)
      else
        var d := Deliver(p, sound, net);
        match d.outcome
        case Raised(e) => Call(Raised(e), vu.sent + d.sent)
        case Returned(q) => Call(Returned(QueryDict(q)), vu.sent + d.sent)
  }

  /** The title goes into the returner's form as given, even when it is None or empty. */
  lemma TitlePassedThrough(p: Fields, sound: Value, withSound: bool)
    ensures (Title, p.title) in MessageForm(p, sound, withSound)
    ensures forall v :: (Title, v) in MessageForm(p, sound, withSound) ==> v == p.title
  {
  }

  /** The returner refuses the options before any request. */
  predicate Refuses(o: Options)
  {
    || !Truthy(o.token) || !Truthy(o.user)
    || (Truthy(o.priority) && EqualsInt(o.priority, 2) && !Truthy(o.expire) && !Truthy(o.retry))
  }

  /** The fields the returner sends for a job: the options as resolved, the title
      with no default, and the body as the message. */
  function ReturnFields(o: Options, job: Job): Fields
  {
    Fields(o.user, o.device, o.token, o.title, o.priority, o.expire, o.retry, Str(Body(job)))
  }

  /** What the returner makes of `_post_message`'s dict: the "res" lookup, then an
      info log line when it is false. */
  function Conclude(reply: Reply): (r: Outcome<Logged>)
    ensures reply.UserReply? ==> r == Raised(KeyError("res"))
    ensures reply.QueryDict? ==> r.Returned? && (r.value == Quiet <==> reply.reply.res)
    ensures r.Returned? && r.value.LoggedError? ==> r.value.reply == reply.reply && !reply.reply.res
  {
    match reply.Res()
    case Raised(e) => Raised(e)
    case Returned(res) => if !res then Returned(LoggedError(reply.reply)) else Returned(Quiet)
  }

  /** `returner(ret)`. */
  function Returner(o: Options, job: Job, net: Network): (r: Call<Logged>)
    // the option checks, in order, before any request
    ensures !Truthy(o.token) ==> r == Call(Raised(InvocationError(TokenUnavailable)), [])
    ensures Truthy(o.token) && !Truthy(o.user) ==> r == Call(Raised(InvocationError(UserUnavailable)), [])
    ensures (Truthy(o.token) && Truthy(o.user) && Truthy(o.priority) && EqualsInt(o.priority, 2)
             && !Truthy(o.expire) && !Truthy(o.retry)) ==> r == Call(Raised(InvocationError(EmergencyUnset)), [])
    ensures r.sent == [] <==> Refuses(o)
    // past the checks, exactly `_post_message`'s requests, and its dict is concluded
    ensures !Refuses(o) ==>
      var result := PostForReturn(ReturnFields(o, job), o.sound, net);
      && r.sent == result.sent
      && (result.outcome.Raised? ==> r.outcome == Raised(result.outcome.exn))
      && (result.outcome.Returned? ==> r.outcome == Conclude(result.outcome.value))
  {
    if !Truthy(o.token) then Call(Raised(InvocationError(TokenUnavailable)), [])
    else if !Truthy(o.user) then Call(Raised(InvocationError(UserUnavailable)), [])
    else if Truthy(o.priority) && EqualsInt(o.priority, 2) && !Truthy(o.expire) && !Truthy(o.retry) then
      Call(Raised(InvocationError(EmergencyUnset)), [])
    else
      var result := PostForReturn(ReturnFields(o, job), o.sound, net);
      match result.outcome
      case Raised(e) => Call(Raised(e), result.sent)
      case Returned(reply) => Call(Conclude(reply), result.sent)
  }

  /** A user key the service rejects makes the returner raise at the "res" lookup,
      after the user validation and nothing else. */
  lemma RejectedUserRaisesKeyError(o: Options, job: Job, net: Network)
    requires !Refuses(o)
    requires var vu := ValidateUser(o.user, o.device, o.token, net);
      vu.outcome.Returned? && !vu.outcome.value.result
    ensures Returner(o, job, net) == Call(Raised(KeyError("res")), [UserRequest(o.user, o.device, o.token)])
  {
    assert ReturnFields(o, job).user == o.user;
  }

  /** With the user key accepted and the sound check not raising, the returner
      sends the user validation, the sound check for a truthy sound, and the body
      in the message form; the outcome follows the message query. */
  lemma AcceptedUserSendsBody(o: Options, job: Job, net: Network)
    requires !Refuses(o)
    requires var vu := ValidateUser(o.user, o.device, o.token, net);
      vu.outcome.Returned? && vu.outcome.value.result
    requires !SoundCheckRaises(o.sound, o.token, net)
    ensures var r := Returner(o, job, net);
      var posted := MessageRequest(MessageForm(ReturnFields(o, job), o.sound, SoundAdded(o.sound, o.token, net)));
      && r.sent == [UserRequest(o.user, o.device, o.token)]
                   + (if Truthy(o.sound) then [SoundRequest(o.token)] else []) + [posted]
      && (Classify(net(posted)).Returned? ==> r.outcome == Returned(Quiet))
      && (Classify(net(posted)).Raised? ==> r.outcome == Raised(Classify(net(posted)).exn))
  {
    var p := ReturnFields(o, job);
    assert p.user == o.user && p.device == o.device && p.token == o.token;
  }

  /** Emergency priority needs only one of expire and retry: either alone gets past the checks. */
  lemma EmergencyNeedsOneOf(o: Options)
    requires Truthy(o.token) && Truthy(o.user) && EqualsInt(o.priority, 2)
    ensures !Refuses(o) <==> Truthy(o.expire) || Truthy(o.retry)
  {
  }

  /** As written, the returner never logs a failed send at info level: the query either reports
      success or raises, and a rejected user key raises at the "res" lookup. */
  lemma NeverLogsError(o: Options, job: Job, net: Network)
    ensures Returner(o, job, net).outcome.Returned? ==> Returner(o, job, net).outcome.value == Quiet
  {
    var p := ReturnFields(o, job);
    var result := PostForReturn(p, o.sound, net);
    if !Refuses(o) && result.outcome.Returned? && result.outcome.value.QueryDict? {
      var vu := ValidateUser(p.user, p.device, p.token, net);
      assert vu.outcome.Returned? && vu.outcome.value.result;
      assert result.outcome.value.reply.res;
    }
  }
}

=== FILE: pushover_state.dfy ===
/**
 The state `post_message` (states/pushover.py): an envelope around the
 execution module's `post_message`. Test mode first, then a missing user, then
 a missing message; otherwise the call is delegated and its truth value becomes
 the state result. `__opts__["test"]` is a parameter, and the execution module is
 an oracle `Executor` that reports the truth value of what it returned together
 with the requests it sent.
 */
module PushoverState {
  import opened Py
  import opened PushoverApi
  import PushoverNotify

  const Pending: string := "is to be sent"
  const Intro: string := "The following message " + Pending + " to Pushover: "
  const UserMissing: string := "Pushover user is missing: "
  const MessageMissing: string := "Pushover message is missing: "
  const SentMessage: string := "Sent message: "
  const FailedMessage: string := "Failed to send message: "

  /** The keyword arguments of the state; `sound` and `api_version` are accepted and never read. */
  datatype StateArgs = StateArgs(user: Value, device: Value, message: Value, title: Value, priority: Value,
                                 expire: Value, retry: Value, sound: Value, apiVersion: Value, token: Value)

  /** The state's defaults: priority 0, api_version 1, everything else None. */
  const Defaults: StateArgs := StateArgs(Nil, Nil, Nil, Nil, Int(0), Nil, Nil, Nil, Int(1), Nil)

  /** The state return dict. `result` is `None` in test mode, otherwise a boolean. */
  datatype Envelope = Envelope(name: Value, changes: map<string, Value>, result: Option<bool>, comment: string)

  /** `__salt__["pushover.post_message"]`: the truth value of its return value, or
      its exception, and the requests it sent. */
  type Executor = PushoverNotify.Args -> Call<bool>

  /** The user the state works with: the argument, else the configured one. */
  function StateUser(args: StateArgs, config: PushoverNotify.Config): Value
  {
    PushoverNotify.Configured(args.user, config, "user")
  }

  /** The keyword arguments handed to the execution module: the resolved user and
      the state's own message, title, device, priority, expire, retry and token;
      the execution module's `sound` keeps its default. */
  function Forwarded(args: StateArgs, user: Value): (a: PushoverNotify.Args)
    ensures a.user == user && a.sound == Nil
    ensures a.message == args.message && a.title == args.title && a.device == args.device
    ensures a.priority == args.priority && a.expire == args.expire && a.retry == args.retry && a.token == args.token
  {
    PushoverNotify.Args(user, args.device, args.message, args.title, args.priority, args.expire, args.retry, Nil, args.token)
  }

  /** The state reaches the execution module: not in test mode, with a user and a message. */
  predicate Delegates(args: StateArgs, test: bool, config: PushoverNotify.Config)
  {
    !test && Truthy(StateUser(args, config)) && Truthy(args.message)
  }

  /** The test-mode comment: it names the message and says it is to be sent. */
  function Announcement(message: Value): (c: string)
    ensures Contains(c, Show(message)) && Contains(c, Pending)
    ensures |c| > |Show(message)| && c[|c| - |Show(message)|..] == Show(message)
  {
    var c := Intro + Show(message);
    ContainsAfter("The following message ", Pending, " to Pushover: ", Show(message));
    c
  }

  /** The state `post_message`. */
  function PostMessage(name: Value, args: StateArgs, test: bool, config: PushoverNotify.Config, execute: Executor)
    : (r: Call<Envelope>)
    // every returned envelope echoes the name and reports no changes
    ensures r.outcome.Returned? ==> r.outcome.value.name == name && r.outcome.value.changes == map[]
    // test mode takes precedence, sends nothing and announces the message
    ensures test ==> r.sent == [] && r.outcome.Returned? && r.outcome.value.result == None
    ensures test ==> r.outcome.value.comment == Announcement(args.message)
    // a missing user, then a missing message, fail without a call
    ensures !test && !Truthy(StateUser(args, config)) ==>
      r == Call(Returned(Envelope(name, map[], Some(false), UserMissing + Show(StateUser(args, config)))), [])
    ensures !test && Truthy(StateUser(args, config)) && !Truthy(args.message) ==>
      r == Call(Returned(Envelope(name, map[], Some(false), MessageMissing + Show(args.message))), [])
    // otherwise exactly the execution module's call happens, and its truth value is the result
    ensures Delegates(args, test, config) ==>
      var c := execute(Forwarded(args, StateUser(args, config)));
      && r.sent == c.sent
      && (c.outcome.Raised? ==> r.outcome == Raised(c.outcome.exn))
      && (c.outcome.Returned? ==> r.outcome.Returned? && r.outcome.value.result == Some(c.outcome.value))
      && (c.outcome == Returned(true) ==> r.outcome.value.comment == SentMessage + Show(name))
      && (c.outcome == Returned(false) ==> r.outcome.value.comment == FailedMessage + Show(name))
    // success is claimed only when the execution module returned something truthy
    ensures r.outcome.Returned? && r.outcome.value.result == Some(true) <==>
      Delegates(args, test, config) && execute(Forwarded(args, StateUser(args, config))).outcome == Returned(true)
  {
    var ret := Envelope(name, map[], Some(false), "");
    if test then
      Call(Returned(ret.(comment := Announcement(args.message), result := None)), [])
    else
      var user := StateUser(args, config);
      if !Truthy(user) then Call(Returned(ret.(comment := UserMissing + Show(user))), [])
      else if !Truthy(args.message) then Call(Returned(ret.(comment := MessageMissing + Show(args.message))), [])
      else
        var c := execute(Forwarded(args, user));
        match c.outcome
        case Raised(e) => Call(Raised(e), c.sent)
        case Returned(b) =>
          if b then Call(Returned(ret.(result := Some(true), comment := SentMessage + Show(name))), c.sent)
          else Call(Returned(ret.(comment := FailedMessage + Show(name))), c.sent)
  }

  /** `sound` and `api_version` have no effect on the state. */
  lemma IgnoresSoundAndApiVersion(name: Value, args: StateArgs, test: bool, config: PushoverNotify.Config,
                                  execute: Executor, sound: Value, apiVersion: Value)
    ensures PostMessage(name, args.(sound := sound, apiVersion := apiVersion), test, config, execute)
         == PostMessage(name, args, test, config, execute)
  {
    var other := args.(sound := sound, apiVersion := apiVersion);
    assert StateUser(other, config) == StateUser(args, config);
    assert Forwarded(other, StateUser(args, config)) == Forwarded(args, StateUser(args, config));
  }

  /** Python's truth value of what the execution module returns: `True`, or a dict
      that is truthy exactly when it has a key. */
  predicate Succeeded(n: PushoverNotify.Notified)
  {
    n.Delivered? || |n.reply.Keys()| > 0
  }

  /** The execution module of this plugin as the state's delegate. */
  function Execution(config: PushoverNotify.Config, net: Network): Executor
  {
    (a: PushoverNotify.Args) =>
      var c := PushoverNotify.PostMessage(a, config, net);
      match c.outcome
      case Raised(e) => Call(Raised(e), c.sent)
      case Returned(n) => Call(Returned(Succeeded(n)), c.sent)
  }

  /** Every value the execution module returns is truthy: `True` or a non-empty dict. */
  lemma ExecutionNeverFalsy(config: PushoverNotify.Config, net: Network, a: PushoverNotify.Args)
    ensures Execution(config, net)(a).outcome != Returned(false)
    ensures Execution(config, net)(a).sent == PushoverNotify.PostMessage(a, config, net).sent
  {
    var c := PushoverNotify.PostMessage(a, config, net);
    if c.outcome.Returned? {
      assert Succeeded(c.outcome.value);
    }
  }

  /** With this plugin's execution module behind it, a delegating state that
      returns always reports success: the failure branch is unreachable. */
  lemma ReturnedMeansReportedSent(name: Value, args: StateArgs, config: PushoverNotify.Config, net: Network)
    ensures var r := PostMessage(name, args, false, config, Execution(config, net));
      Delegates(args, false, config) && r.outcome.Returned? ==>
        r.outcome.value.result == Some(true) && r.outcome.value.comment == SentMessage + Show(name)
  {
    ExecutionNeverFalsy(config, net, Forwarded(args, StateUser(args, config)));
  }

  /** A user key the service rejects still yields "Sent message": the execution
      module hands back the validate_user dict, which is truthy, and nothing but
      the user validation was sent. */
  lemma RejectedUserReportedAsSent(name: Value, args: StateArgs, config: PushoverNotify.Config, net: Network)
    requires Delegates(args, false, config)
    requires var a := Forwarded(args, StateUser(args, config));
      && PushoverNotify.Validate(a, config).Returned?
      && var v := PushoverNotify.Validate(a, config).value;
         var vu := ValidateUser(v.user, v.device, v.token, net);
         vu.outcome.Returned? && !vu.outcome.value.result
    ensures var r := PostMessage(name, args, false, config, Execution(config, net));
      var v := PushoverNotify.Validate(Forwarded(args, StateUser(args, config)), config).value;
      && r.outcome == Returned(Envelope(name, map[], Some(true), SentMessage + Show(name)))
      && r.sent == [UserRequest(v.user, v.device, v.token)]
  {
    var a := Forwarded(args, StateUser(args, config));
    var v := PushoverNotify.Validate(a, config).value;
    ExecutionNeverFalsy(config, net, a);
  }

  /** The state called as `post_message("event", "user", message="Chaos is a ladder")`. */
  const ChaosArgs: StateArgs := Defaults.(user := Str("user"), message := Str("Chaos is a ladder"))

  /** That call forwards the user, the message and the state's defaults (priority 0,
      everything else None) to the execution module. A truthy answer gives result
      True with "Sent message: event"; in test mode nothing is called, the result is
      None and the comment names the message. */
  lemma ChaosCall(config: PushoverNotify.Config, execute: Executor)
    requires execute(PushoverNotify.Args(Str("user"), Nil, Str("Chaos is a ladder"), Nil, Int(0), Nil, Nil, Nil, Nil)).outcome
             == Returned(true)
    ensures var forwarded := PushoverNotify.Args(Str("user"), Nil, Str("Chaos is a ladder"), Nil, Int(0), Nil, Nil, Nil, Nil);
      PostMessage(Str("event"), ChaosArgs, false, config, execute)
        == Call(Returned(Envelope(Str("event"), map[], Some(true), "Sent message: event")), execute(forwarded).sent)
    ensures var r := PostMessage(Str("event"), ChaosArgs, true, config, execute);
      && r.sent == [] && r.outcome.Returned? && r.outcome.value.result == None
      && Contains(r.outcome.value.comment, "Chaos is a ladder") && Contains(r.outcome.value.comment, Pending)
  {
    assert StateUser(ChaosArgs, config) == Str("user");
    var c := Announcement(ChaosArgs.message);
    assert Show(ChaosArgs.message) == "Chaos is a ladder";
    assert Contains(c, "Chaos is a ladder");
    assert Delegates(ChaosArgs, false, config);
    assert SentMessage + Show(Str("event")) == "Sent message: event";
    assert Forwarded(ChaosArgs, Str("user"))
        == PushoverNotify.Args(Str("user"), Nil, Str("Chaos is a ladder"), Nil, Int(0), Nil, Nil, Nil, Nil);
  }
}

=== FILE: py.dfy ===
/**
 The slice of Python semantics the plugin's decision logic depends on:
 dynamically typed argument values, the truth-value test, comparisons of
 such values against integer literals, `str()` rendering, `"".join`, and
 the exceptions that can escape an entry point.
 */
module Py {

  datatype Option<+T> = None | Some(value: T)

  /** A dynamically typed argument or configuration value. `Nil` is Python's `None`. */
  datatype Value = Nil | Bool(b: bool) | Int(i: int) | Str(s: string)

  /** The exceptions an entry point can let escape. */
  datatype Exn =
    | InvocationError(text: string)   // salt.exceptions.SaltInvocationError
    | TypeError                       // an operator applied to the wrong types
    | KeyError(key: string)           // `d[key]` on a dict without that key
    | AttributeError                  // attribute lookup on `None`
    | UnboundLocalError(name: string) // a local read before any assignment

  /** What a Python call does: return a value or raise. */
  datatype Outcome<+T> = Returned(value: T) | Raised(exn: Exn)

  /** Python's truth-value test. */
  predicate Truthy(v: Value)
  {
    match v
    case Nil => false
    case Bool(b) => b
    case Int(i) => i != 0
    case Str(s) => s != ""
  }

  /** `a or b`: the first operand when it is truthy, otherwise the second. */
  function Or(a: Value, b: Value): (r: Value)
    ensures Truthy(r) <==> Truthy(a) || Truthy(b)
    ensures Truthy(a) ==> r == a
    ensures !Truthy(a) ==> r == b
  {
    if Truthy(a) then a else b
  }

  /** The integer a value stands for in arithmetic and comparisons; `bool` is a subclass of `int`. */
  function Numeric(v: Value): Option<int>
  {
    match v
    case Bool(b) => Some(if b then 1 else 0)
    case Int(i) => Some(i)
    case _ => None
  }

  /** `v == n` for an integer literal `n`: a str or None is never equal to an int. */
  predicate EqualsInt(v: Value, n: int)
  {
    Numeric(v) == Some(n)
  }

  /** `v in range(lo, hi)`. */
  predicate InRange(v: Value, lo: int, hi: int)
  {
    Numeric(v).Some? && lo <= Numeric(v).value < hi
  }

  /** Membership in a range agrees with the fallback definition of `in`:
      some element of the range compares equal to the value. */
  lemma InRangeIsSomeMemberEqual(v: Value, lo: int, hi: int)
    ensures InRange(v, lo, hi) <==> exists n :: lo <= n < hi && EqualsInt(v, n)
  {
    if InRange(v, lo, hi) {
      assert EqualsInt(v, Numeric(v).value);
    }
  }

  /** `v < n` for an integer literal `n`; ordering a str or None against an int raises. */
  function LessThan(v: Value, n: int): (r: Outcome<bool>)
    ensures r.Raised? <==> Numeric(v).None?
    ensures r.Raised? ==> r.exn == TypeError
    ensures r.Returned? ==> (r.value <==> Numeric(v).value < n)
  {
    match Numeric(v)
    case Some(x) => Returned(x < n)
    case None => Raised(TypeError)
  }

  /** `str(v)`. */
  function Show(v: Value): string
  {
    match v
    case Nil => "None"
    case Bool(b) => if b then "True" else "False"
    case Int(i) => if i < 0 then "-" + Decimal(-i) else Decimal(i)
    case Str(s) => s
  }

  /** The decimal digits of `n`, most significant first, with no leading zero. */
  function Decimal(n: nat): (r: string)
    ensures |r| >= 1
    ensures forall k :: 0 <= k < |r| ==> '0' <= r[k] <= '9'
    ensures |r| > 1 ==> r[0] != '0'
    decreases n
  {
    var last := [(('0' as int) + n % 10) as char];
    if n < 10 then last else Decimal(n / 10) + last
  }

  /** `"".join(parts)`. */
  function Join(parts: seq<string>): (r: string)
  {
    if parts == [] then "" else parts[0] + Join(parts[1..])
  }

  /** `t in s` for strings: `t` occurs in `s` as a contiguous slice. */
  ghost predicate Contains(s: string, t: string)
  {
    exists i :: OccursAt(s, t, i)
  }

  /** `t` occurs in `s` starting at index `i`. */
  predicate OccursAt(s: string, t: string, i: int)
  {
    0 <= i <= |s| - |t| && s[i..i + |t|] == t
  }

  /** A string contains its suffix, and every piece of its prefix. */
  lemma ContainsAfter(a: string, t: string, b: string, rest: string)
    ensures Contains(a + t + b + rest, t) && Contains(a + t + b + rest, rest)
  {
    var s := a + t + b + rest;
    assert OccursAt(s, t, |a|);
    assert OccursAt(s, rest, |s| - |rest|);
  }
}
